=== FILE: README.md ===
# m3umatch in Dafny

A model of the core of m3umatch, a small service that keeps IPTV playlists in
step with their electronic programme guides (EPG). For every configured list it
downloads an M3U playlist and a gzipped XMLTV guide, indexes the guide's
channels by lower-cased display name, and writes a copy of the playlist in which
every matched metadata line containing `#EXTINF:-1` gets a
`tvg-id="<channel id>"` attribute after each `#EXTINF:-1`; a matched line with
another duration keeps no tag. The project models the four deterministic pieces
of that work, on top of a support layer for Python's string operations:

- **Text** (the support layer): the Python string operations the matcher
  relies on. These are `strip()` with Python's whitespace set, `lower()` (ASCII
  letters only), `split(",")[-1]`, `startswith` and `replace`. `replace` is modelled as
  left-to-right, non-overlapping replacement of every occurrence.
- **GuideIndex**: the guide index. A channel with a non-empty id and a
  non-empty display name is filed under its lower-cased, unstripped name. The
  last channel with a given name wins.
- **Playlist**: the playlist rewrite. It emits a `#EXTM3U` header first, passes
  every line that is not a metadata line through unchanged, and applies the
  tagging `replace` to metadata lines.
- **ListConfig**: the append rule of the `/add` endpoint.
- **Sync**: one pass of the background loop. Downloads go through an
  environment oracle, as do the documents the servers hand back. The pass also
  covers artifact path naming, the short-circuit gating of the downloads and
  the match, and how errors end or do not end the pass.

Documents are abstracted. A playlist is the list of lines `readlines()`
returns, each keeping its terminator. A guide is the sequence of its `channel`
elements in document order, each with an optional id and optional display-name
text.

Some behaviour of the code is easy to miss; the model keeps it as written:

- List names are not checked for uniqueness. List values are not checked for
  being non-empty. `Sync.PlaylistOverwritesMatched` and
  `ListConfig.AcceptsDuplicateAndEmpty` show the consequences.
- An input header is not normalised away; it is duplicated
  (`Playlist.HeaderDuplicated`, `Playlist.HeaderLineKept`).
- Only the text `#EXTINF:-1` is tagged. It is tagged at every occurrence in
  the line, not once (`Playlist.OtherDurationUntouched`,
  `Playlist.EveryOccurrenceTagged`). A duration that merely starts with `-1`,
  such as `-10`, is split by the tag (`Playlist.MinusTenExample`).
- A local error while saving a download is not isolated to its list: it ends
  the loop. See Findings.

## Model

| member | source | states |
|---|---|---|
| Text.TrimLeftSpec | m3u_epg_matcher.py:65 | the left half of `strip()` removes exactly the leading whitespace run and stops at a non-whitespace character |
| Text.TrimRightSpec | m3u_epg_matcher.py:65 | the right half of `strip()` removes exactly the trailing whitespace run and stops at a non-whitespace character |
| Text.StripSpec | m3u_epg_matcher.py:65 | `strip()` returns a contiguous slice of its input; everything cut off on either side is whitespace, and the result neither starts nor ends with whitespace |
| Text.StripTerminated | m3u_epg_matcher.py:59-65 | a name read with its line terminator strips back to the bare name |
| Text.Lower | m3u_epg_matcher.py:56 | `lower()` keeps the length, maps each upper-case ASCII letter to its lower-case letter, keeps every other character, and leaves no upper-case letter |
| Text.LowerIdempotent | m3u_epg_matcher.py:56 | lowering twice is lowering once, so index keys are fixed points of `lower()` |
| Text.AfterLastComma | m3u_epg_matcher.py:65 | `split(",")[-1]` is the comma-free suffix that follows the last comma, or the whole line when it has no comma |
| Text.AfterLastCommaOf | m3u_epg_matcher.py:65 | whatever precedes the last comma, the field after it is returned unchanged |
| Text.MissingFirstCharNotContained | m3u_epg_matcher.py:68 | a pattern cannot occur in text lacking the pattern's first character |
| Text.ReplaceAll | m3u_epg_matcher.py:68 | `replace` leaves a line without an occurrence of the pattern unchanged |
| Text.ReplaceAllSelf | m3u_epg_matcher.py:68 | replacing a pattern by itself is the identity, which is what the miss branch of the rewrite does |
| Text.ReplaceAllSkipsFree | m3u_epg_matcher.py:68 | text without an occurrence of the pattern, followed by an occurrence or by nothing, is copied and replacement continues after it, for a pattern whose first character appears only at its start |
| Text.ReplaceAllJoin | m3u_epg_matcher.py:68 | every occurrence is replaced: `p.join(parts).replace(p, rep) == rep.join(parts)` when no part contains `p` and `p`'s first character appears only at its start |
| GuideIndex.Fold | m3u_epg_matcher.py:52-56 | each step of the channel loop keeps the index shape: lower-case keys mapped to non-empty ids |
| GuideIndex.BuildIndex | m3u_epg_matcher.py:51-56 | every built index has lower-case keys and non-empty ids |
| GuideIndex.LastExists | m3u_epg_matcher.py:52-56 | a name contributed by some indexable channel has a last such channel |
| GuideIndex.FoldSpec | m3u_epg_matcher.py:52-56 | the loop continued from any index adds exactly the keys of indexable channels, maps each to the id of the last channel with that key, and keeps the other entries |
| GuideIndex.IndexSpec | m3u_epg_matcher.py:51-56 | a key is in the index exactly when some channel with non-empty id and name lowers to it, and it maps to the id of the last such channel |
| GuideIndex.IndexKeys | m3u_epg_matcher.py:51-56 | the index has one entry per distinct lower-cased name of an indexable channel |
| GuideIndex.FoldAppend | m3u_epg_matcher.py:52-56 | indexing a guide in two parts is indexing it at once |
| GuideIndex.UnindexableIgnored | m3u_epg_matcher.py:53-55 | a channel lacking an id or a display name never affects the index, wherever it stands |
| GuideIndex.SingleChannel | m3u_epg_matcher.py:51-56 | a guide with one indexable channel indexes exactly that channel under its lowered name |
| GuideIndex.GuideNamesNotStripped | m3u_epg_matcher.py:54-56 | guide names are lowered but not stripped, so ` BBC One` is filed under ` bbc one` and not under `bbc one` |
| GuideIndex.SecondOfTwoWins | m3u_epg_matcher.py:55-56 | of two channels with the same lowered name, the index keeps the second's id |
| GuideIndex.LastDuplicateWins | m3u_epg_matcher.py:55-56 | `News` then `NEWS` leaves only the second id under `news` |
| Playlist.RewriteLine | m3u_epg_matcher.py:63-70 | a line not starting with `#EXTINF`, or whose name misses the index, comes out unchanged |
| Playlist.Rewrite | m3u_epg_matcher.py:61-70 | the output is the header followed by exactly one rewritten line per input line, in input order |
| Playlist.PassThrough | m3u_epg_matcher.py:69-70 | every line that is not a metadata line appears unchanged one place later in the output |
| Playlist.UnmatchedUnchanged | m3u_epg_matcher.py:65-68 | a metadata line whose trimmed, lowered name is not a key is copied unchanged |
| Playlist.HeaderDuplicated | m3u_epg_matcher.py:61-63 | an input whose first line is exactly `#EXTM3U\n` gets a second, identical header line |
| Playlist.HeaderLineKept | m3u_epg_matcher.py:61-70 | an input first line starting with `#EXTM3U`, with attributes or without a terminator, is kept unchanged after the emitted header |
| Playlist.NoDurationUntouched | m3u_epg_matcher.py:68 | a line without `#EXTINF:-1` is never changed, whatever the index holds |
| Playlist.InfoLineKey | m3u_epg_matcher.py:64-66 | a `#EXTINF:-1<attrs>,<name>` line is a metadata line looked up by its stripped, lowered name |
| Playlist.ReplaceAfterLeadingDuration | m3u_epg_matcher.py:68 | in a line that starts with `#EXTINF:-1` and holds no other occurrence of it, `replace` rewrites just that leading marker |
| Playlist.TagAfterDuration | m3u_epg_matcher.py:64-68 | on such a line the tag for the looked-up id is inserted right after `-1`, and the rest of the line is kept |
| Playlist.TagAfterDurationHit | m3u_epg_matcher.py:64-68 | a hit prepends ` tvg-id="<id>"` to the line's attributes and changes nothing else |
| Playlist.RetagAddsSecondAttribute | m3u_epg_matcher.py:68 | rewriting an already tagged line adds a second `tvg-id` attribute, so the rewrite is not idempotent |
| Playlist.EveryOccurrenceTagged | m3u_epg_matcher.py:68 | every occurrence of `#EXTINF:-1` in a metadata line gets the tag, not only the first |
| Playlist.OtherDurationUntouched | m3u_epg_matcher.py:64-68 | a metadata line with duration `0` and no `#EXTINF:-1` later in the line is never tagged |
| Playlist.MinusTenExample | m3u_epg_matcher.py:64-68 | `#EXTINF:-10,BBC One` with `bbc one -> bbc1` becomes `#EXTINF:-1 tvg-id="bbc1"0,BBC One`: the tag splits a duration that starts with `-1` |
| Playlist.MatchedLineExample | m3u_epg_matcher.py:64-68 | `#EXTINF:-1,BBC One` with `bbc one -> bbc1` becomes `#EXTINF:-1 tvg-id="bbc1",BBC One` |
| Playlist.MatchedExample | m3u_epg_matcher.py:61-70 | that playlist becomes the header, the tagged line and the untouched URL line |
| Playlist.UnknownExample | m3u_epg_matcher.py:64-68 | `#EXTINF:-1,Unknown Channel` is left as it was |
| ListConfig.AddList | m3u_epg_matcher.py:105-109 | the configuration gains exactly the posted record, at the end, with status 200, iff it has `name`, `m3u` and `epg`; otherwise it is unchanged and the status is 400 |
| ListConfig.AddKeepsWellFormed | m3u_epg_matcher.py:105-106 | a configuration built through `/add` only holds records with all three keys |
| ListConfig.AcceptsDuplicateAndEmpty | m3u_epg_matcher.py:105-106 | a repeated name and empty URLs are accepted |
| Sync.MatchEpg | m3u_epg_matcher.py:46-75 | output is written exactly when both the guide and the playlist can be read; it is the rewrite of the playlist against the guide's index |
| Sync.ProcessEntry | m3u_epg_matcher.py:82-91 | the playlist is downloaded to `<name>.m3u`; the guide, to `<name>.xml.gz`, is downloaded only after a successful playlist download; the match runs only when both succeeded, and output is written exactly when both succeeded and both documents can be read, as the rewrite of the playlist against the guide's index |
| Sync.RunCycle | m3u_epg_matcher.py:81-91 | lists are processed in configuration order; the pass ends early exactly when a record lacks a key or a download fails locally, and at that list |
| Sync.RunCycleIsolated | m3u_epg_matcher.py:81-91 | with local download failures contained, every list is processed in order and the pass ends early only on a record lacking a key |
| Sync.RequestFailuresIsolated | m3u_epg_matcher.py:40-41 | when no download fails locally, a failed list does not stop the later lists: a complete configuration is processed to the end |
| Sync.LocalFailureStopsLaterLists | m3u_epg_matcher.py:36-41 | a list whose download fails locally ends the pass: no later list is processed |
| Sync.LocalFailureHaltsCycle | m3u_epg_matcher.py:31-41 | two lists, the first of which cannot save its playlist: nothing is processed, while the contained pass reaches the second |
| Sync.IsolatedCompletes | m3u_epg_matcher.py:81-91 | the contained pass processes every list of a complete configuration |
| Sync.IsolatedAgrees | m3u_epg_matcher.py:81-91 | where no list fails locally, the contained pass and the pass as written agree |
| Sync.RunCycleSnoc | m3u_epg_matcher.py:81-91 | one more record at the end of the configuration adds its report, a halt on a missing key, or a halt on a local failure, after the others |
| Sync.CycleAfterAdd | m3u_epg_matcher.py:105-106 | a list added through `/add` is processed after every list already configured |
| Sync.DataPathHead | m3u_epg_matcher.py:12 | a path in the data directory begins with `.`, so only an absolute file keeps its leading `/` |
| Sync.DataPathInjective | m3u_epg_matcher.py:86-88 | two file names give the same path string exactly when they are the same name |
| Sync.MatchedPathInjective | m3u_epg_matcher.py:88 | two lists share a matched output path exactly when they have the same name |
| Sync.ArtifactPathsDistinct | m3u_epg_matcher.py:86-88 | the playlist, guide and output files of one list are three different files |
| Sync.PlaylistOverwritesMatched | m3u_epg_matcher.py:86-88 | the playlist of a list named `n_matched` is saved over the output of the list named `n` |
| Sync.AbsoluteNameLeavesDataDir | m3u_epg_matcher.py:86-88 | a name starting with `/` gives all three files the name itself as path prefix, a string that does not start with `./data` |
| Sync.RelativeNameInDataDir | m3u_epg_matcher.py:86-88 | any other name gives all three files path strings that start with `./data/` |
| Sync.MatchedFilesSpec | m3u_epg_matcher.py:72-73 | `match_epg` writes a matched file during a pass exactly when some list's match succeeded for that path, and the file then holds the output of the last such list |
| Sync.FailedListSkipped | m3u_epg_matcher.py:90-91 | a list whose playlist download fails gets no output, and the next list still gets its rewritten playlist |

## Left out

- HTTP: `requests.get`, the 20-second timeout, status checks and chunked
  streaming are reduced to the three-way download outcome of `Sync.Env.fetch`.
  Partially written files after a failed download are not modelled. The
  outcome is a function of the URL and the destination path, so two downloads
  of the same URL to the same path within one pass get the same outcome.
- Gzip, UTF-8 decoding and XML parsing are foreign libraries. The guide is the
  channel sequence of `Sync.Env.guideAt`, or None when it cannot be read. The
  playlist is the line sequence of `Sync.Env.playlistAt`.
- Sync.ProcessEntry: the documents are taken by URL from the environment, not
  read back from the file paths. In one sequential pass this agrees with
  reading the files: each list reads the two files it has just saved, before
  any later list saves anything, and its own two downloads go to different
  paths (`Sync.ArtifactPathsDistinct`).
- A failure to write the output file inside `match_epg` is not modelled; only
  a failure to read the guide or the playlist is.
- Sync.MatchedFilesSpec: speaks only of the files `match_epg` writes in one
  pass. A matched file left by an earlier pass, or a playlist downloaded onto a
  `_matched.m3u` path (`Sync.PlaylistOverwritesMatched`), is not tracked.
- Sync.RelativeNameInDataDir: paths are strings, not normalised. A name
  holding `..` gives a string under `./data/` that names a file outside the
  directory; the same holds for `Sync.DataPathInjective`, which compares path
  strings, not the files they resolve to.
- Text.Lower: covers ASCII letters only, not Python's full Unicode `lower()`.
- The daemon thread, the endless loop and `time.sleep(86400)` are timing and
  concurrency, so a single pass is modelled. A pass that halts stands for the
  thread dying, after which no later pass runs either.
- Flask routes, `jsonify`, `send_from_directory`, `/lists` and `/files`, and
  the JSON load and save of `config.json` are web and persistence plumbing.
  The HTTP status of `/add` is kept as `ListConfig.AddStatus`.
- The values of a posted record are modelled as strings. A JSON body that is
  not an object is not modelled.
- The text printed for a caught exception is left out. A failed match is
  `Sync.MatchOutcome.MatchFailed`.

## Findings

| source | as written | input that shows it | evidently intended | confidence | as-written member | corrected member |
|---|---|---|---|---|---|---|
| m3u_epg_matcher.py:31-41 | `download_file` catches only `RequestException`, so an `OSError` from opening or writing the destination file propagates out of `process_lists` and ends the loop thread | a configuration whose first list is named `no/such` with a reachable playlist URL (so `./data/no/such.m3u` cannot be opened), followed by any other list: neither list is processed, and no later pass runs | a download failure of any kind skips only its own list, like a failed request | high, not executed | Sync.LocalFailureHaltsCycle | Sync.RunCycleIsolated |

=== FILE: guide_index.dfy ===
/**
 * The guide index of match_epg: the guide's `channel` elements, in document
 * order, folded into a map from lower-cased display name to channel id.
 */
module GuideIndex {
  import opened Wrappers
  import opened Text

  /**
   * One `channel` element: its `id` attribute and the text of its first
   * `display-name` child. None stands for a missing attribute, a missing
   * child, or a child without text.
   */
  datatype ChannelRecord = ChannelRecord(id: Option<string>, displayName: Option<string>)

  /** Lower-cased display name -> channel id. */
  type Index = map<string, string>

  /** Both fields present and non-empty: Python's `if channel_id and display_name`. */
  predicate Indexable(c: ChannelRecord) {
    c.id.Some? && c.id.value != "" && c.displayName.Some? && c.displayName.value != ""
  }

  /** The key a record is filed under: its display name lower-cased, not stripped. */
  function KeyOf(c: ChannelRecord): string
    requires Indexable(c)
  {
    Lower(c.displayName.value)
  }

  /** The shape every index has: lower-case keys and non-empty ids. */
  ghost predicate WellKeyed(idx: Index) {
    forall k :: k in idx ==> Lower(k) == k && idx[k] != ""
  }

  /** One loop iteration: file an indexable record, overwriting an earlier id. */
  function Insert(idx: Index, c: ChannelRecord): Index {
    if Indexable(c) then idx[KeyOf(c) := c.id.value] else idx
  }

  /** The loop over channels, continuing from an index built so far. */
  function Fold(idx: Index, cs: seq<ChannelRecord>): (r: Index)
    requires WellKeyed(idx)
    ensures WellKeyed(r)
    decreases |cs|
  {
    if |cs| == 0 then idx
    else
      var next := Insert(idx, cs[0]);
      assert WellKeyed(next) by {
        if Indexable(cs[0]) {
          LowerIdempotent(cs[0].displayName.value);
        }
      }
      Fold(next, cs[1..])
  }

  /** The index match_epg builds from the guide's channels. */
  function BuildIndex(cs: seq<ChannelRecord>): (idx: Index)
    ensures WellKeyed(idx)
  {
    Fold(map[], cs)
  }

  /** Channel i is the last indexable record in cs filed under key k. */
  ghost predicate IsLastFor(cs: seq<ChannelRecord>, i: int, k: string) {
    && 0 <= i < |cs| && Indexable(cs[i]) && KeyOf(cs[i]) == k
    && forall j :: i < j < |cs| && Indexable(cs[j]) ==> KeyOf(cs[j]) != k
  }

  /** The keys contributed by the indexable records of cs. */
  ghost function KeySet(cs: seq<ChannelRecord>): set<string> {
    set i | 0 <= i < |cs| && Indexable(cs[i]) :: KeyOf(cs[i])
  }

  /** Some indexable record has key k exactly when a last such record exists. */
  lemma {:induction false} LastExists(cs: seq<ChannelRecord>, k: string)
    ensures k in KeySet(cs) <==> exists i :: IsLastFor(cs, i, k)
    decreases |cs|
  {
    if k in KeySet(cs) {
      var i :| 0 <= i < |cs| && Indexable(cs[i]) && KeyOf(cs[i]) == k;
      while exists j :: i < j < |cs| && Indexable(cs[j]) && KeyOf(cs[j]) == k
        invariant 0 <= i < |cs| && Indexable(cs[i]) && KeyOf(cs[i]) == k
        decreases |cs| - i
      {
        var j :| i < j < |cs| && Indexable(cs[j]) && KeyOf(cs[j]) == k;
        i := j;
      }
      assert IsLastFor(cs, i, k);
    }
  }

  /** The fold over cs from acc, described without reference to the fold. */
  lemma {:induction false} FoldSpec(acc: Index, cs: seq<ChannelRecord>, k: string)
    requires WellKeyed(acc)
    ensures k in Fold(acc, cs) <==> k in acc || k in KeySet(cs)
    ensures forall i :: IsLastFor(cs, i, k) ==> Fold(acc, cs)[k] == cs[i].id.value
    ensures k !in KeySet(cs) && k in acc ==> Fold(acc, cs)[k] == acc[k]
    decreases |cs|
  {
    if |cs| > 0 {
      var next := Insert(acc, cs[0]);
      FoldSpec(next, cs[1..], k);
      assert KeySet(cs) == KeySet(cs[..1]) + KeySet(cs[1..]) by {
        forall x | x in KeySet(cs) ensures x in KeySet(cs[..1]) + KeySet(cs[1..]) {
          var i :| 0 <= i < |cs| && Indexable(cs[i]) && KeyOf(cs[i]) == x;
          if i > 0 { assert cs[1..][i - 1] == cs[i]; }
        }
        forall x | x in KeySet(cs[1..]) ensures x in KeySet(cs) {
          var i :| 0 <= i < |cs[1..]| && Indexable(cs[1..][i]) && KeyOf(cs[1..][i]) == x;
          assert cs[i + 1] == cs[1..][i];
        }
      }
      forall i | IsLastFor(cs, i, k)
        ensures Fold(acc, cs)[k] == cs[i].id.value
      {
        if i > 0 {
          assert IsLastFor(cs[1..], i - 1, k) by {
            forall j | i - 1 < j < |cs[1..]| && Indexable(cs[1..][j])
              ensures KeyOf(cs[1..][j]) != k
            {
              assert cs[1..][j] == cs[j + 1];
            }
          }
        } else {
          assert k !in KeySet(cs[1..]) by {
            forall x | x in KeySet(cs[1..]) ensures x != k {
              var j :| 0 <= j < |cs[1..]| && Indexable(cs[1..][j]) && KeyOf(cs[1..][j]) == x;
              assert cs[1..][j] == cs[j + 1];
            }
          }
        }
      }
    }
  }

  /**
   * The index maps k to v exactly when some indexable record has key k, and v
   * is the id of the last such record in document order.
   */
  lemma IndexSpec(cs: seq<ChannelRecord>, k: string)
    ensures k in BuildIndex(cs) <==> exists i :: IsLastFor(cs, i, k)
    ensures forall i :: IsLastFor(cs, i, k) ==> BuildIndex(cs)[k] == cs[i].id.value
  {
    FoldSpec(map[], cs, k);
    LastExists(cs, k);
  }

  /** The index has exactly one entry per distinct lower-cased display name. */
  lemma IndexKeys(cs: seq<ChannelRecord>)
    ensures BuildIndex(cs).Keys == KeySet(cs)
    ensures |BuildIndex(cs)| == |KeySet(cs)|
  {
    forall k ensures k in BuildIndex(cs) <==> k in KeySet(cs) {
      FoldSpec(map[], cs, k);
    }
  }

  /** Splitting the channel list splits the loop. */
  lemma {:induction false} FoldAppend(acc: Index, a: seq<ChannelRecord>, b: seq<ChannelRecord>)
    requires WellKeyed(acc)
    ensures Fold(acc, a + b) == Fold(Fold(acc, a), b)
    decreases |a|
  {
    if |a| > 0 {
      assert (a + b)[1..] == a[1..] + b;
      FoldAppend(Insert(acc, a[0]), a[1..], b);
    } else {
      assert a + b == b;
    }
  }

  /** A record lacking an id or a display name never affects the index, wherever it stands. */
  lemma UnindexableIgnored(a: seq<ChannelRecord>, c: ChannelRecord, b: seq<ChannelRecord>)
    requires !Indexable(c)
    ensures BuildIndex(a + [c] + b) == BuildIndex(a + b)
  {
    FoldAppend(map[], a, [c] + b);
    assert a + [c] + b == a + ([c] + b);
    FoldAppend(map[], a, b);
    assert ([c] + b)[1..] == b;
  }

  /** A guide with one indexable channel indexes exactly that channel. */
  lemma SingleChannel(c: ChannelRecord)
    requires Indexable(c)
    ensures BuildIndex([c]) == map[KeyOf(c) := c.id.value]
  {
    assert [c][1..] == [];
    assert Fold(map[], [c]) == Fold(Insert(map[], c), []);
  }

  /** Lowering the padded example name keeps its leading space. */
  lemma LowerPaddedBbcOne(w: string)
    requires w == " BBC One"
    ensures Lower(w) == " bbc one"
  {
    var k := Lower(w);
    assert |k| == 8 && k[0] == ' ' && k[1] == 'b' && k[2] == 'b' && k[3] == 'c' && k[4] == ' '
        && k[5] == 'o' && k[6] == 'n' && k[7] == 'e';
  }

  /** Guide names are lower-cased but not stripped: a padded name keeps its padding. */
  lemma GuideNamesNotStripped(c: ChannelRecord)
    requires c == ChannelRecord(Some("bbc1"), Some(" BBC One"))
    ensures BuildIndex([c]) == map[" bbc one" := "bbc1"]
    ensures "bbc one" !in BuildIndex([c])
  {
    SingleChannel(c);
    LowerPaddedBbcOne(c.displayName.value);
  }

  /** Of two channels sharing a key, the index keeps the second. */
  lemma SecondOfTwoWins(c0: ChannelRecord, c1: ChannelRecord)
    requires Indexable(c0) && Indexable(c1) && KeyOf(c0) == KeyOf(c1)
    ensures BuildIndex([c0, c1]) == map[KeyOf(c1) := c1.id.value]
  {
    var cs := [c0, c1];
    assert cs[1..] == [c1] && [c1][1..] == [];
    assert Fold(map[], cs) == Fold(map[KeyOf(c0) := c0.id.value], [c1]);
  }

  /** On duplicate names the later channel wins. */
  lemma LastDuplicateWins()
    ensures BuildIndex([ChannelRecord(Some("a"), Some("News")),
                        ChannelRecord(Some("b"), Some("NEWS"))]) == map["news" := "b"]
  {
    var c0 := ChannelRecord(Some("a"), Some("News"));
    var c1 := ChannelRecord(Some("b"), Some("NEWS"));
    var news := Lower("News");
    assert news == "news" by {
      assert |news| == 4 && news[0] == 'n' && news[1] == 'e' && news[2] == 'w' && news[3] == 's';
    }
    var upper := Lower("NEWS");
    assert upper == "news" by {
      assert |upper| == 4 && upper[0] == 'n' && upper[1] == 'e' && upper[2] == 'w' && upper[3] == 's';
    }
    SecondOfTwoWins(c0, c1);
  }
}

=== FILE: list_config.dfy ===
/**
 * The list configuration and the append rule of the /add endpoint. A posted
 * record is a JSON object; its values are modelled as strings.
 */
module ListConfig {

  /** One posted JSON object: key -> value. */
  type Record = map<string, string>

  /** The configuration: the records in the order they were added. */
  type Config = seq<Record>

  /** The HTTP answer of /add: 200 with a message, or 400 with an error. */
  datatype AddStatus = Added | InvalidData {
    function Code(): int {
      match this
      case Added => 200
      case InvalidData => 400
    }
  }

  /** The three keys `"name" in data and "m3u" in data and "epg" in data` tests. */
  predicate HasListKeys(data: Record) {
    "name" in data && "m3u" in data && "epg" in data
  }

  /** A configuration every cycle can read all three fields of. */
  ghost predicate WellFormed(config: Config) {
    forall i :: 0 <= i < |config| ==> HasListKeys(config[i])
  }

  /**
   * The /add endpoint: the configuration grows by exactly the posted record,
   * at the end, when it has the three keys, and is left alone otherwise.
   * Neither the values nor uniqueness of the name are checked.
   */
  function AddList(config: Config, data: Record): (r: (Config, AddStatus))
    ensures r.1 == Added <==> HasListKeys(data)
    ensures r.1.Code() == (if HasListKeys(data) then 200 else 400)
    ensures HasListKeys(data) ==> |r.0| == |config| + 1 && r.0[..|config|] == config && r.0[|config|] == data
    ensures !HasListKeys(data) ==> r.0 == config
  {
    if HasListKeys(data) then (config + [data], Added) else (config, InvalidData)
  }

  /** Configurations built through /add stay well formed. */
  lemma AddKeepsWellFormed(config: Config, data: Record)
    requires WellFormed(config)
    ensures WellFormed(AddList(config, data).0)
  {
    var c' := AddList(config, data).0;
    forall i | 0 <= i < |c'| ensures HasListKeys(c'[i]) {
      if i < |config| {
        assert c'[i] == c'[..|config|][i];
      }
    }
  }

  /** A duplicate name and empty values are both accepted. */
  lemma AcceptsDuplicateAndEmpty(config: Config, data: Record)
    requires |config| == 1 && config[0] == map["name" := "a", "m3u" := "u", "epg" := "g"]
    requires data == map["name" := "a", "m3u" := "", "epg" := ""]
    ensures AddList(config, data) == ([config[0], data], Added)
  {
    assert HasListKeys(data);
    assert config + [data] == [config[0], data];
  }
}

=== FILE: playlist.dfy ===
/**
 * The playlist rewrite of match_epg: a header line, then every input line in
 * order, where in `#EXTINF` lines whose channel name is in the guide index every
 * `#EXTINF:-1` gains a tvg-id attribute. Lines keep their terminators, as readlines() leaves them.
 */
module Playlist {
  import opened Text
  import opened GuideIndex

  /** The header the output always starts with. */
  const Header: string := "#EXTM3U\n"

  /** The prefix that makes a line a metadata line. */
  const InfoMarker: string := "#EXTINF"

  /** The only text the tag is attached to: a metadata marker with duration -1. */
  const Duration: string := "#EXTINF:-1"

  /** The attribute inserted for a channel id; empty when the lookup found nothing. */
  function TvgTag(id: string): string {
    if id == "" then "" else " tvg-id=\"" + id + "\""
  }

  /** The name a metadata line is looked up by: after the last comma, stripped, lower-cased. */
  function LookupKey(line: string): string {
    Lower(Strip(AfterLastComma(line)))
  }

  /** dict.get(key, ""). */
  function Lookup(idx: Index, key: string): string {
    if key in idx then idx[key] else ""
  }

  /** The id a metadata line is matched to, or "" when its name is not in the index. */
  function MatchedId(line: string, idx: Index): string {
    Lookup(idx, LookupKey(line))
  }

  /** The output line for one input line. */
  function RewriteLine(line: string, idx: Index): (r: string)
    ensures !(InfoMarker <= line) ==> r == line
    ensures MatchedId(line, idx) == "" ==> r == line
  {
    if InfoMarker <= line then
      var tagged := Duration + TvgTag(MatchedId(line, idx));
      assert MatchedId(line, idx) == "" ==> ReplaceAll(line, Duration, tagged) == line by {
        if MatchedId(line, idx) == "" {
          assert tagged == Duration;
          ReplaceAllSelf(line, Duration);
        }
      }
      ReplaceAll(line, Duration, tagged)
    else
      line
  }

  /** The header, then each input line passed through `f`, in order. */
  function Render(lines: seq<string>, f: string -> string): (out: seq<string>)
    ensures |out| == |lines| + 1
    ensures out[0] == Header
    ensures forall i :: 1 <= i < |out| ==> out[i] == f(lines[i - 1])
  {
    [Header] + seq(|lines|, i requires 0 <= i < |lines| => f(lines[i]))
  }

  /** The whole output document of match_epg. */
  function Rewrite(lines: seq<string>, idx: Index): (out: seq<string>)
    ensures |out| == |lines| + 1
    ensures out[0] == Header
    ensures forall i :: 1 <= i < |out| ==> out[i] == RewriteLine(lines[i - 1], idx)
  {
    Render(lines, line => RewriteLine(line, idx))
  }

  /** Every line that is not a metadata line appears unchanged, one place later. */
  lemma PassThrough(lines: seq<string>, idx: Index, i: int)
    requires 0 <= i < |lines| && !(InfoMarker <= lines[i])
    ensures Rewrite(lines, idx)[i + 1] == lines[i]
  {
  }

  /** A metadata line whose name misses the index is unchanged. */
  lemma UnmatchedUnchanged(lines: seq<string>, idx: Index, i: int)
    requires 0 <= i < |lines| && LookupKey(lines[i]) !in idx
    ensures Rewrite(lines, idx)[i + 1] == lines[i]
  {
  }

  /** An input that already has a header line gets a second one. */
  lemma HeaderDuplicated(lines: seq<string>, idx: Index)
    requires |lines| > 0 && lines[0] == Header
    ensures Rewrite(lines, idx)[..2] == [Header, Header]
  {
    assert !(InfoMarker <= Header) by { assert Header[4] != InfoMarker[4]; }
  }

  /**
   * Any input header line, with attributes or without a terminator, is kept
   * as an ordinary line right after the header the rewrite emits.
   */
  lemma HeaderLineKept(lines: seq<string>, idx: Index)
    requires |lines| > 0 && "#EXTM3U" <= lines[0]
    ensures Rewrite(lines, idx)[0] == Header
    ensures Rewrite(lines, idx)[1] == lines[0]
  {
    assert !(InfoMarker <= lines[0]) by { assert lines[0][4] == 'M' != InfoMarker[4]; }
  }

  /** A line without `#EXTINF:-1` in it is never changed, whatever the index says. */
  lemma NoDurationUntouched(line: string, idx: Index)
    requires !Contains(line, Duration)
    ensures RewriteLine(line, idx) == line
  {
  }

  /** On a metadata line the rewrite is the source's str.replace call. */
  lemma RewriteInfoLine(line: string, idx: Index)
    requires InfoMarker <= line
    ensures RewriteLine(line, idx)
         == ReplaceAll(line, Duration, Duration + TvgTag(MatchedId(line, idx)))
  {
  }

  /** The line `#EXTINF:-1` + attrs + `,` + name as the playlist side writes it. */
  function InfoLine(attrs: string, name: string): string {
    Duration + attrs + "," + name
  }

  /** Such a line is a metadata line, looked up by its stripped, lower-cased name. */
  lemma InfoLineKey(attrs: string, name: string, idx: Index)
    requires ',' !in name
    ensures InfoMarker <= InfoLine(attrs, name)
    ensures MatchedId(InfoLine(attrs, name), idx) == Lookup(idx, Lower(Strip(name)))
  {
    assert InfoLine(attrs, name) == (Duration + attrs) + "," + name;
    AfterLastCommaOf(Duration + attrs, name);
  }

  /** The marker's `#` occurs only at its start, so occurrences of it never overlap. */
  lemma DurationFirstUnique()
    ensures FirstCharUnique(Duration)
  {
    forall k | 1 <= k < |Duration|
      ensures Duration[k] != Duration[0]
    {
    }
  }

  /** Text without `#` holds no `#EXTINF:-1`. */
  lemma HashFreeNoDuration(s: string)
    requires '#' !in s
    ensures !Contains(s, Duration)
  {
    assert Duration[0] == '#';
    MissingFirstCharNotContained(s, Duration);
  }

  /** A line made of the marker and text without another `#EXTINF:-1` gets exactly one replacement. */
  lemma ReplaceAfterLeadingDuration(attrs: string, name: string, rep: string)
    requires !Contains(attrs + "," + name, Duration)
    ensures ReplaceAll(InfoLine(attrs, name), Duration, rep) == rep + attrs + "," + name
  {
    var rest := attrs + "," + name;
    assert InfoLine(attrs, name) == Duration + rest;
    ReplaceAllLeading(rest, Duration, rep);
  }

  /**
   * On a hit the tag lands right after the `-1` duration and nothing else
   * changes, provided `#EXTINF:-1` does not occur again in the line.
   */
  lemma TagAfterDuration(attrs: string, name: string, idx: Index)
    requires ',' !in name && !Contains(attrs + "," + name, Duration)
    ensures RewriteLine(InfoLine(attrs, name), idx)
         == Duration + TvgTag(Lookup(idx, Lower(Strip(name)))) + attrs + "," + name
  {
    var line := InfoLine(attrs, name);
    InfoLineKey(attrs, name, idx);
    RewriteInfoLine(line, idx);
    ReplaceAfterLeadingDuration(attrs, name, Duration + TvgTag(MatchedId(line, idx)));
  }

  /** A hit, written as a metadata line whose attributes gained the tag. */
  lemma TagAfterDurationHit(attrs: string, name: string, idx: Index)
    requires ',' !in name && !Contains(attrs + "," + name, Duration)
    requires Lower(Strip(name)) in idx
    ensures RewriteLine(InfoLine(attrs, name), idx)
         == InfoLine(TvgTag(idx[Lower(Strip(name))]) + attrs, name)
  {
    var r := RewriteLine(InfoLine(attrs, name), idx);
    TagAfterDuration(attrs, name, idx);
    HitShape(attrs, name, idx, r);
  }

  /** The looked-up tag followed by the attributes is the new attribute text of the line. */
  lemma HitShape(attrs: string, name: string, idx: Index, r: string)
    requires Lower(Strip(name)) in idx
    requires r == Duration + TvgTag(Lookup(idx, Lower(Strip(name)))) + attrs + "," + name
    ensures r == InfoLine(TvgTag(idx[Lower(Strip(name))]) + attrs, name)
  {
  }

  /** Prefixing a tag whose id holds no `#EXTINF:-1` creates no occurrence of it. */
  lemma TagKeepsDurationFree(id: string, rest: string)
    requires !Contains(id, Duration) && !Contains(rest, Duration)
    ensures !Contains(TvgTag(id) + rest, Duration)
  {
    if id == "" {
      assert TvgTag(id) + rest == rest;
    } else {
      var open := " tvg-id=\"";
      var close := "\"";
      assert Duration[0] == '#' && '#' !in open && '#' !in close && '"' !in Duration;
      NotContainedAfterFree(close, rest, Duration);
      NotContainedBeforeForeign(id, close + rest, Duration);
      NotContainedAfterFree(open, id + (close + rest), Duration);
      assert TvgTag(id) + rest == open + (id + (close + rest));
    }
  }

  /** Attributes that gained a tag still hold no `#EXTINF:-1` up to the end of the line. */
  lemma RetaggedStaysFree(id: string, attrs: string, name: string)
    requires !Contains(id, Duration) && !Contains(attrs + "," + name, Duration)
    ensures !Contains((TvgTag(id) + attrs) + "," + name, Duration)
  {
    TagKeepsDurationFree(id, attrs + "," + name);
    assert (TvgTag(id) + attrs) + "," + name == TvgTag(id) + (attrs + "," + name);
  }

  /** A line whose attributes gained the tag twice differs from one that gained it once. */
  lemma TwiceTagged(once: string, twice: string, tag: string, attrs: string, name: string)
    requires |tag| > 0
    requires once == InfoLine(tag + attrs, name) && twice == InfoLine(tag + (tag + attrs), name)
    ensures twice == InfoLine(tag + tag + attrs, name)
    ensures twice != once
  {
    assert tag + (tag + attrs) == tag + tag + attrs;
    assert |twice| == |once| + |tag|;
  }

  /**
   * Tagging is not idempotent: rewriting an already tagged line with the same
   * index adds a second tvg-id attribute.
   */
  lemma RetagAddsSecondAttribute(attrs: string, name: string, idx: Index)
    requires ',' !in name && !Contains(attrs + "," + name, Duration)
    requires Lower(Strip(name)) in idx
    requires idx[Lower(Strip(name))] != "" && !Contains(idx[Lower(Strip(name))], Duration)
    ensures RewriteLine(RewriteLine(InfoLine(attrs, name), idx), idx)
         == InfoLine(TvgTag(idx[Lower(Strip(name))]) + TvgTag(idx[Lower(Strip(name))]) + attrs, name)
    ensures RewriteLine(RewriteLine(InfoLine(attrs, name), idx), idx)
         != RewriteLine(InfoLine(attrs, name), idx)
  {
    var id := idx[Lower(Strip(name))];
    var tag := TvgTag(id);
    var once := RewriteLine(InfoLine(attrs, name), idx);
    TagAfterDurationHit(attrs, name, idx);
    RetaggedStaysFree(id, attrs, name);
    TagAfterDurationHit(tag + attrs, name, idx);
    TwiceTagged(once, RewriteLine(once, idx), tag, attrs, name);
  }

  /**
   * Every occurrence of `#EXTINF:-1` in a matched line receives the tag, not
   * only the first one.
   */
  lemma EveryOccurrenceTagged(parts: seq<string>, idx: Index)
    requires InfoMarker <= Join(parts, Duration)
    requires forall i :: 0 <= i < |parts| ==> !Contains(parts[i], Duration)
    ensures RewriteLine(Join(parts, Duration), idx)
         == Join(parts, Duration + TvgTag(MatchedId(Join(parts, Duration), idx)))
  {
    var line := Join(parts, Duration);
    RewriteInfoLine(line, idx);
    DurationFirstUnique();
    ReplaceAllJoin(parts, Duration, Duration + TvgTag(MatchedId(line, idx)));
  }

  /** `#EXTINF:-1` does not occur in `#EXTINF:0` followed by text without it. */
  lemma ZeroDurationHasNoPattern(rest: string)
    requires !Contains(rest, Duration)
    ensures !Contains("#EXTINF:0" + rest, Duration)
  {
    var line := "#EXTINF:0" + rest;
    var after := "EXTINF:0";
    assert Duration[0] == '#' && '#' !in after;
    NotContainedAfterFree(after, rest, Duration);
    assert line[1..] == after + rest;
    assert !(Duration <= line) by { assert line[8] != Duration[8]; }
    NotContainedCons(line, Duration);
  }

  /** A line with duration `0` is left alone: only the text `#EXTINF:-1` is tagged. */
  lemma OtherDurationUntouched(rest: string, idx: Index)
    requires !Contains(rest, Duration)
    ensures RewriteLine("#EXTINF:0" + rest, idx) == "#EXTINF:0" + rest
  {
    ZeroDurationHasNoPattern(rest);
    NoDurationUntouched("#EXTINF:0" + rest, idx);
  }

  /** "BBC One" lower-cased. */
  lemma LowerBbcOne(w: string)
    requires w == "BBC One"
    ensures Lower(w) == "bbc one"
  {
    var k := Lower(w);
    assert |k| == 7 && k[0] == 'b' && k[1] == 'b' && k[2] == 'c' && k[3] == ' '
        && k[4] == 'o' && k[5] == 'n' && k[6] == 'e';
  }

  /** The example channel name "BBC One" holds no comma, and no `#EXTINF:-1` follows the comma. */
  lemma BbcOneChars(name: string)
    requires name == "BBC One\n"
    ensures ',' !in name && !Contains("" + "," + name, Duration)
  {
    assert "" + "," + name == ",BBC One\n";
    HashFreeNoDuration("" + "," + name);
  }

  /** What the example channel name "BBC One" is looked up by. */
  lemma BbcOneKey(name: string)
    requires name == "BBC One\n"
    ensures Lower(Strip(name)) == "bbc one"
  {
    var w := name[..7];
    assert w == "BBC One" && name == w + "\n";
    StripTerminated(w);
    LowerBbcOne(w);
  }

  /** The tag for the example id `bbc1`. */
  lemma Bbc1Tag(id: string)
    requires id == "bbc1"
    ensures TvgTag(id) == " tvg-id=\"bbc1\""
  {
  }

  /** A metadata line with no attributes before its comma. */
  lemma BareInfoLine(tag: string, name: string)
    ensures InfoLine("", name) == Duration + "," + name
    ensures InfoLine(tag + "", name) == Duration + tag + "," + name
  {
    assert tag + "" == tag;
  }

  /** `#EXTINF:-1,BBC One` becomes `#EXTINF:-1 tvg-id="bbc1",BBC One`. */
  lemma MatchedLineExample(name: string, idx: Index)
    requires name == "BBC One\n" && idx == map["bbc one" := "bbc1"]
    ensures RewriteLine(Duration + "," + name, idx) == Duration + " tvg-id=\"bbc1\"" + "," + name
  {
    BbcOneChars(name);
    BbcOneKey(name);
    var id := idx[Lower(Strip(name))];
    TagAfterDurationHit("", name, idx);
    Bbc1Tag(id);
    BareInfoLine(TvgTag(id), name);
  }

  /** The matched example as a whole document: header, tagged line, untouched URL. */
  lemma MatchedExample(name: string, url: string, idx: Index)
    requires name == "BBC One\n" && url == "http://host/bbc1\n"
    requires idx == map["bbc one" := "bbc1"]
    ensures Rewrite([Duration + "," + name, url], idx)
         == [Header, Duration + " tvg-id=\"bbc1\"" + "," + name, url]
  {
    MatchedLineExample(name, idx);
    assert !(InfoMarker <= url) by { assert url[0] != InfoMarker[0]; }
  }

  /** What the example channel name "Unknown Channel" is looked up by. */
  lemma UnknownKey(name: string)
    requires name == "Unknown Channel\n"
    ensures ',' !in name
    ensures Lower(Strip(name)) != "bbc one"
  {
    var w := name[..15];
    assert w == "Unknown Channel" && name == w + "\n";
    StripTerminated(w);
  }

  /** `#EXTINF:-1,Unknown Channel` has no guide entry and is left as it was. */
  lemma UnknownExample(name: string, idx: Index)
    requires name == "Unknown Channel\n" && idx == map["bbc one" := "bbc1"]
    ensures RewriteLine(Duration + "," + name, idx) == Duration + "," + name
  {
    UnknownKey(name);
    InfoLineKey("", name, idx);
    BareInfoLine("", name);
  }

  /** `#EXTINF:-10,BBC One` read as the `-1` metadata line with attributes `0`. */
  lemma MinusTenParts(line: string, name: string)
    requires line == "#EXTINF:-10,BBC One\n" && name == "BBC One\n"
    ensures line == InfoLine("0", name)
    ensures !Contains("0" + "," + name, Duration)
  {
    assert "0" + "," + name == "0,BBC One\n";
    HashFreeNoDuration("0" + "," + name);
  }

  /** The tagged form of that line. */
  lemma MinusTenResult(tag: string, name: string)
    requires tag == " tvg-id=\"bbc1\"" && name == "BBC One\n"
    ensures InfoLine(tag + "0", name) == "#EXTINF:-1 tvg-id=\"bbc1\"0,BBC One\n"
  {
  }

  /**
   * A duration that merely starts with `-1` is split by the tag:
   * `#EXTINF:-10,BBC One` becomes `#EXTINF:-1 tvg-id="bbc1"0,BBC One`.
   */
  lemma MinusTenExample(line: string, name: string, idx: Index)
    requires line == "#EXTINF:-10,BBC One\n" && name == "BBC One\n"
    requires idx == map["bbc one" := "bbc1"]
    ensures RewriteLine(line, idx) == "#EXTINF:-1 tvg-id=\"bbc1\"0,BBC One\n"
  {
    MinusTenParts(line, name);
    BbcOneChars(name);
    BbcOneKey(name);
    var id := idx[Lower(Strip(name))];
    TagAfterDurationHit("0", name, idx);
    Bbc1Tag(id);
    MinusTenResult(TvgTag(id), name);
  }
}

=== FILE: sync.dfy ===
/**
 * One pass of the background loop in process_lists: for every configured
 * list, in configuration order, download the playlist, then (only if that
 * worked) the guide, then (only if both worked) run match_epg. Downloads and
 * the documents they fetch are supplied by an environment oracle.
 */
module Sync {
  import opened Wrappers
  import opened GuideIndex
  import opened Playlist
  import opened ListConfig

  /** The directory every artifact is written to. */
  const DataDir: string := "./data"

  /**
   * os.path.join(DataDir, file): a file name starting with `/` is absolute and
   * replaces the directory; any other is placed under it.
   */
  function DataPath(file: string): string {
    if |file| > 0 && file[0] == '/' then file else DataDir + "/" + file
  }

  /** Where the raw playlist of a list is written. */
  function PlaylistPath(name: string): string {
    DataPath(name + ".m3u")
  }

  /** Where the raw, compressed guide of a list is written. */
  function GuidePath(name: string): string {
    DataPath(name + ".xml.gz")
  }

  /** Where the rewritten playlist of a list is written. */
  function MatchedPath(name: string): string {
    DataPath(name + "_matched.m3u")
  }

  /** The three fields a cycle reads from a configured record. */
  datatype ListEntry = ListEntry(name: string, m3u: string, epg: string)

  /** item["name"], item["m3u"], item["epg"]. */
  function EntryOf(rec: Record): ListEntry
    requires HasListKeys(rec)
  {
    ListEntry(rec["name"], rec["m3u"], rec["epg"])
  }

  /**
   * What download_file(url, path) does: returns True, returns False because
   * requests raised a RequestException (bad status, timeout, connection,
   * malformed URL), or lets an error from opening or writing the local file
   * escape, since it only catches RequestException.
   */
  datatype FetchOutcome = Fetched | RequestFailed | LocalFailure

  /**
   * The world one cycle runs against. `fetch` decides each download;
   * `playlistAt` and `guideAt` give the documents the server at a URL sends,
   * as the lines readlines() returns and as the channel elements of the
   * decompressed guide, in document order; None stands for a document that
   * cannot be decoded or parsed.
   */
  datatype Env = Env(
    fetch: (string, string) -> FetchOutcome,
    playlistAt: string -> Option<seq<string>>,
    guideAt: string -> Option<seq<ChannelRecord>>)

  /** What match_epg did for one list: not called, failed inside its try block, or wrote the output. */
  datatype MatchOutcome = NotRun | MatchFailed | Written(lines: seq<string>)

  /** What one list went through in a cycle. The guide download is None when it was not attempted. */
  datatype Report = Report(name: string, playlist: FetchOutcome, guide: Option<FetchOutcome>,
                           output: MatchOutcome)

  /**
   * match_epg once both files are on disk: the guide is read and indexed
   * first, then the playlist; any failure is caught and no output is written.
   */
  function MatchEpg(playlist: Option<seq<string>>, guide: Option<seq<ChannelRecord>>): (r: MatchOutcome)
    ensures r != NotRun
    ensures r.Written? <==> playlist.Some? && guide.Some?
    ensures r.Written? ==> |r.lines| == |playlist.value| + 1 && r.lines[0] == Header
    ensures r.Written? ==> r.lines == Rewrite(playlist.value, BuildIndex(guide.value))
  {
    match guide
    case None => MatchFailed
    case Some(channels) =>
      match playlist
      case None => MatchFailed
      case Some(lines) => Written(Rewrite(lines, BuildIndex(channels)))
  }

  /**
   * The body of the loop for one list. The `and` in the source short-circuits,
   * so the guide is downloaded only after the playlist download succeeded,
   * and match_epg runs only when both did.
   */
  function ProcessEntry(e: ListEntry, env: Env): (r: Report)
    ensures r.name == e.name
    ensures r.playlist == env.fetch(e.m3u, PlaylistPath(e.name))
    ensures r.guide.Some? <==> r.playlist == Fetched
    ensures r.guide.Some? ==> r.guide.value == env.fetch(e.epg, GuidePath(e.name))
    ensures r.output != NotRun <==> r.playlist == Fetched && r.guide == Some(Fetched)
    ensures r.output.Written? <==> r.playlist == Fetched && r.guide == Some(Fetched) && env.playlistAt(e.m3u).Some? && env.guideAt(e.epg).Some?
    ensures r.output.Written? ==>
              && env.playlistAt(e.m3u).Some? && env.guideAt(e.epg).Some?
              && r.output.lines == Rewrite(env.playlistAt(e.m3u).value, BuildIndex(env.guideAt(e.epg).value))
  {
    var p := env.fetch(e.m3u, PlaylistPath(e.name));
    if p != Fetched then Report(e.name, p, None, NotRun)
    else
      var g := env.fetch(e.epg, GuidePath(e.name));
      if g != Fetched then Report(e.name, p, Some(g), NotRun)
      else Report(e.name, p, Some(g), MatchEpg(env.playlistAt(e.m3u), env.guideAt(e.epg)))
  }

  /** A download raised an error download_file does not catch. */
  predicate Escapes(r: Report) {
    r.playlist == LocalFailure || r.guide == Some(LocalFailure)
  }

  /** Why a cycle stopped before the end of the configuration. */
  datatype Halt = MissingKey | UncaughtLocalError

  /** The lists a cycle got through, in order, and why it stopped early, if it did. */
  datatype CycleResult = CycleResult(reports: seq<Report>, halt: Option<Halt>)

  /** Reports of the lists processed before any that halts the cycle. */
  ghost predicate ProcessedInOrder(config: Config, env: Env, reports: seq<Report>) {
    && |reports| <= |config|
    && forall i :: 0 <= i < |reports| ==>
         HasListKeys(config[i]) && reports[i] == ProcessEntry(EntryOf(config[i]), env)
         && !Escapes(reports[i])
  }

  /** The result of a cycle that processed `rep` first and then got `rest` from the remaining lists. */
  function Prepend(rep: Report, rest: CycleResult): CycleResult {
    CycleResult([rep] + rest.reports, rest.halt)
  }

  /**
   * One cycle as written: a record missing a key raises KeyError and an
   * uncaught download error propagates, and either ends the loop — the
   * remaining lists are not processed.
   */
  function RunCycle(config: Config, env: Env): (r: CycleResult)
    ensures ProcessedInOrder(config, env, r.reports)
    ensures r.halt.None? <==> |r.reports| == |config|
    ensures r.halt == Some(MissingKey) ==> !HasListKeys(config[|r.reports|])
    ensures r.halt == Some(UncaughtLocalError) ==>
              HasListKeys(config[|r.reports|]) && Escapes(ProcessEntry(EntryOf(config[|r.reports|]), env))
    decreases |config|
  {
    if |config| == 0 then CycleResult([], None)
    else if !HasListKeys(config[0]) then CycleResult([], Some(MissingKey))
    else
      var rep := ProcessEntry(EntryOf(config[0]), env);
      if Escapes(rep) then CycleResult([], Some(UncaughtLocalError))
      else
        var rest := RunCycle(config[1..], env);
        assert forall i :: 1 <= i < |config| ==> config[i] == config[1..][i - 1];
        Prepend(rep, rest)
  }

  /**
   * One cycle in which a download that fails locally skips its list, as a
   * failed request does. A record missing a key still ends the cycle.
   */
  function RunCycleIsolated(config: Config, env: Env): (r: CycleResult)
    ensures |r.reports| <= |config|
    ensures forall i :: 0 <= i < |r.reports| ==>
              HasListKeys(config[i]) && r.reports[i] == ProcessEntry(EntryOf(config[i]), env)
    ensures r.halt != Some(UncaughtLocalError)
    ensures r.halt.None? <==> |r.reports| == |config|
    ensures r.halt == Some(MissingKey) ==> !HasListKeys(config[|r.reports|])
    decreases |config|
  {
    if |config| == 0 then CycleResult([], None)
    else if !HasListKeys(config[0]) then CycleResult([], Some(MissingKey))
    else
      var rep := ProcessEntry(EntryOf(config[0]), env);
      var rest := RunCycleIsolated(config[1..], env);
      assert forall i :: 1 <= i < |config| ==> config[i] == config[1..][i - 1];
      Prepend(rep, rest)
  }

  /**
   * The matched playlists match_epg writes during one cycle: path -> contents,
   * later lists overwriting earlier ones. Files left by earlier cycles and raw
   * downloads onto the same path are not tracked.
   */
  function MatchedFiles(reports: seq<Report>): map<string, seq<string>>
    decreases |reports|
  {
    if |reports| == 0 then map[]
    else
      var last := reports[|reports| - 1];
      var before := MatchedFiles(reports[..|reports| - 1]);
      if last.output.Written? then before[MatchedPath(last.name) := last.output.lines] else before
  }

  /** With every record complete and no local download error, a cycle reaches every list. */
  lemma RequestFailuresIsolated(config: Config, env: Env)
    requires WellFormed(config)
    requires forall u, p :: env.fetch(u, p) != LocalFailure
    ensures RunCycle(config, env).halt.None?
    ensures |RunCycle(config, env).reports| == |config|
  {
  }

  /** A list whose download fails locally ends the cycle there: no later list is processed. */
  lemma LocalFailureStopsLaterLists(config: Config, env: Env, i: nat)
    requires WellFormed(config)
    requires i < |config| && Escapes(ProcessEntry(EntryOf(config[i]), env))
    ensures |RunCycle(config, env).reports| <= i
    ensures RunCycle(config, env).halt == Some(UncaughtLocalError)
  {
    var r := RunCycle(config, env);
    assert HasListKeys(config[|r.reports|]);
    assert r.halt.Some? && r.halt != Some(MissingKey);
    assert r.halt.value.UncaughtLocalError?;
  }

  /**
   * Two complete lists, the first of whose playlist cannot be written locally:
   * as written the cycle processes neither, while the isolated cycle reaches both.
   */
  lemma LocalFailureHaltsCycle(a: Record, b: Record, env: Env)
    requires HasListKeys(a) && HasListKeys(b)
    requires env.fetch(a["m3u"], PlaylistPath(a["name"])) == LocalFailure
    ensures RunCycle([a, b], env) == CycleResult([], Some(UncaughtLocalError))
    ensures RunCycleIsolated([a, b], env).halt.None?
    ensures RunCycleIsolated([a, b], env).reports[1] == ProcessEntry(EntryOf(b), env)
  {
  }

  /** The isolated cycle always gets through a well-formed configuration. */
  lemma IsolatedCompletes(config: Config, env: Env)
    requires WellFormed(config)
    ensures RunCycleIsolated(config, env).halt.None?
    ensures |RunCycleIsolated(config, env).reports| == |config|
  {
  }

  /** Where no list fails locally, the isolated cycle is the cycle as written. */
  lemma {:induction false} IsolatedAgrees(config: Config, env: Env)
    requires forall i :: 0 <= i < |config| && HasListKeys(config[i]) ==>
               !Escapes(ProcessEntry(EntryOf(config[i]), env))
    ensures RunCycleIsolated(config, env) == RunCycle(config, env)
    decreases |config|
  {
    if |config| > 0 && HasListKeys(config[0]) {
      assert forall i :: 1 <= i < |config| ==> config[i] == config[1..][i - 1];
      IsolatedAgrees(config[1..], env);
    }
  }

  /** Running a configuration with one more record, once the shorter one completes. */
  lemma {:induction false} RunCycleSnoc(config: Config, rec: Record, env: Env)
    requires RunCycle(config, env).halt.None?
    ensures var before := RunCycle(config, env).reports;
            RunCycle(config + [rec], env) ==
              if !HasListKeys(rec) then CycleResult(before, Some(MissingKey))
              else if Escapes(ProcessEntry(EntryOf(rec), env)) then CycleResult(before, Some(UncaughtLocalError))
              else CycleResult(before + [ProcessEntry(EntryOf(rec), env)], None)
    decreases |config|
  {
    if |config| == 0 {
      assert config + [rec] == [rec];
      assert [rec][1..] == [];
    } else {
      var longer := config + [rec];
      assert longer[0] == config[0];
      assert longer[1..] == config[1..] + [rec];
      var rep := ProcessEntry(EntryOf(config[0]), env);
      var rest := RunCycle(config[1..], env);
      assert RunCycle(config, env) == Prepend(rep, rest);
      RunCycleSnoc(config[1..], rec, env);
      if HasListKeys(rec) && !Escapes(ProcessEntry(EntryOf(rec), env)) {
        assert [rep] + (rest.reports + [ProcessEntry(EntryOf(rec), env)])
            == ([rep] + rest.reports) + [ProcessEntry(EntryOf(rec), env)];
      }
    }
  }

  /**
   * A list added through AddList is processed after every list already
   * configured, once a cycle gets through the earlier ones.
   */
  lemma CycleAfterAdd(config: Config, data: Record, env: Env)
    requires RunCycle(config, env).halt.None?
    requires HasListKeys(data) && !Escapes(ProcessEntry(EntryOf(data), env))
    ensures AddList(config, data).0 == config + [data]
    ensures RunCycle(AddList(config, data).0, env).reports
              == RunCycle(config, env).reports + [ProcessEntry(EntryOf(data), env)]
  {
    RunCycleSnoc(config, data, env);
  }

  /** A path under the data directory starts with `.`, so only absolute files keep their leading `/`. */
  lemma DataPathHead(file: string)
    ensures |DataPath(file)| > 0
    ensures DataPath(file)[0] == '/' <==> |file| > 0 && file[0] == '/'
  {
  }

  /** Distinct file names give distinct path strings (paths are compared as text, not normalised). */
  lemma DataPathInjective(f: string, g: string)
    ensures DataPath(f) == DataPath(g) <==> f == g
  {
    if DataPath(f) == DataPath(g) {
      DataPathHead(f);
      DataPathHead(g);
      if !(|f| > 0 && f[0] == '/') {
        assert f == DataPath(f)[|DataDir| + 1..];
        assert g == DataPath(g)[|DataDir| + 1..];
      }
    }
  }

  /** Distinct list names get distinct matched output paths. */
  lemma MatchedPathInjective(a: string, b: string)
    ensures MatchedPath(a) == MatchedPath(b) <==> a == b
  {
    var s := "_matched.m3u";
    DataPathInjective(a + s, b + s);
    if MatchedPath(a) == MatchedPath(b) {
      assert a == (a + s)[..|a + s| - |s|];
      assert b == (b + s)[..|b + s| - |s|];
    }
  }

  /** The three files written for one list are different files. */
  lemma ArtifactPathsDistinct(name: string)
    ensures PlaylistPath(name) != GuidePath(name)
    ensures PlaylistPath(name) != MatchedPath(name)
    ensures GuidePath(name) != MatchedPath(name)
  {
    assert |PlaylistPath(name)| < |GuidePath(name)| < |MatchedPath(name)|;
  }

  /**
   * Names are not checked, so the playlist of a list named `n_matched` is
   * downloaded onto the matched output of the list named `n`.
   */
  lemma PlaylistOverwritesMatched(name: string)
    ensures PlaylistPath(name + "_matched") == MatchedPath(name)
  {
    assert (name + "_matched") + ".m3u" == name + "_matched.m3u";
  }

  /** A name starting with `/` gives its list path strings that do not start with the data directory. */
  lemma AbsoluteNameLeavesDataDir(name: string)
    requires |name| > 0 && name[0] == '/'
    ensures PlaylistPath(name) == name + ".m3u"
    ensures GuidePath(name) == name + ".xml.gz"
    ensures MatchedPath(name) == name + "_matched.m3u"
    ensures !(DataDir <= MatchedPath(name))
  {
    assert (name + "_matched.m3u")[0] == '/';
  }

  /**
   * Any other name gives its list path strings that start with `./data/`. The
   * strings are not normalised, so a name holding `..` can still point elsewhere.
   */
  lemma RelativeNameInDataDir(name: string)
    requires |name| == 0 || name[0] != '/'
    ensures DataDir + "/" <= PlaylistPath(name)
    ensures DataDir + "/" <= GuidePath(name)
    ensures DataDir + "/" <= MatchedPath(name)
  {
    assert (name + ".m3u")[0] != '/';
    assert (name + ".xml.gz")[0] != '/';
    assert (name + "_matched.m3u")[0] != '/';
  }

  /** The report at `i` wrote the file at `path`, and no later report wrote it again. */
  ghost predicate LastWriter(reports: seq<Report>, i: int, path: string) {
    && 0 <= i < |reports| && reports[i].output.Written? && MatchedPath(reports[i].name) == path
    && forall j :: i < j < |reports| ==> !(reports[j].output.Written? && MatchedPath(reports[j].name) == path)
  }

  /**
   * A path receives a matched playlist during the cycle exactly when some list's
   * match_epg wrote it, and holds the contents of the last such list.
   */
  lemma {:induction false} MatchedFilesSpec(reports: seq<Report>, path: string)
    ensures path in MatchedFiles(reports) <==> exists i :: LastWriter(reports, i, path)
    ensures forall i :: LastWriter(reports, i, path) ==>
              MatchedFiles(reports)[path] == reports[i].output.lines
    decreases |reports|
  {
    if |reports| > 0 {
      var n := |reports| - 1;
      var init := reports[..n];
      MatchedFilesSpec(init, path);
      forall i | LastWriter(init, i, path) && !(reports[n].output.Written? && MatchedPath(reports[n].name) == path)
        ensures LastWriter(reports, i, path)
      {
      }
      forall i | LastWriter(reports, i, path) && i < n
        ensures LastWriter(init, i, path)
      {
      }
      if reports[n].output.Written? && MatchedPath(reports[n].name) == path {
        assert LastWriter(reports, n, path);
        forall i | LastWriter(reports, i, path)
          ensures i == n
        {
        }
      }
    }
  }

  /**
   * A list whose playlist download fails gets no matched file, and the next
   * list is still matched: the only matched playlist the cycle writes is the
   * second list's.
   */
  lemma FailedListSkipped(a: Record, b: Record, env: Env)
    requires HasListKeys(a) && HasListKeys(b) && a["name"] != b["name"]
    requires env.fetch(a["m3u"], PlaylistPath(a["name"])) == RequestFailed
    requires env.fetch(b["m3u"], PlaylistPath(b["name"])) == Fetched
    requires env.fetch(b["epg"], GuidePath(b["name"])) == Fetched
    requires env.playlistAt(b["m3u"]).Some? && env.guideAt(b["epg"]).Some?
    ensures RunCycle([a, b], env).halt.None?
    ensures MatchedFiles(RunCycle([a, b], env).reports)
              == map[MatchedPath(b["name"]) :=
                       Rewrite(env.playlistAt(b["m3u"]).value, BuildIndex(env.guideAt(b["epg"]).value))]
    ensures MatchedPath(a["name"]) !in MatchedFiles(RunCycle([a, b], env).reports)
  {
    var ra, rb := ProcessEntry(EntryOf(a), env), ProcessEntry(EntryOf(b), env);
    assert [a, b][1..] == [b];
    assert [b][1..] == [];
    assert RunCycle([a, b], env).reports == [ra, rb];
    assert [ra, rb][..1] == [ra];
    assert [ra][..0] == [];
    assert MatchedFiles([ra]) == map[];
    assert rb.output.Written?;
    MatchedPathInjective(a["name"], b["name"]);
  }
}

=== FILE: text.dfy ===
/**
 * The string operations the matcher borrows from Python's str type:
 * strip(), lower(), split(",")[-1], startswith() and replace().
 * Strings are sequences of code points; lowering covers ASCII letters only.
 */
module Text {

  /**
   * The code points Python's str.isspace() accepts, which are the ones
   * str.strip() removes from either end: the ASCII controls tab through
   * carriage return and the file/group/record/unit separators, space, and the
   * Unicode spaces and separators.
   */
  const Whitespace: set<char> := {
    '\t', '\n', '\U{0B}', '\U{0C}', '\r', '\U{1C}', '\U{1D}', '\U{1E}', '\U{1F}', ' ',
    '\U{85}', '\U{A0}', '\U{1680}',
    '\U{2000}', '\U{2001}', '\U{2002}', '\U{2003}', '\U{2004}', '\U{2005}',
    '\U{2006}', '\U{2007}', '\U{2008}', '\U{2009}', '\U{200A}',
    '\U{2028}', '\U{2029}', '\U{202F}', '\U{205F}', '\U{3000}'
  }

  predicate IsSpace(c: char) {
    c in Whitespace
  }

  /** s without its leading whitespace (Python's lstrip()). */
  function TrimLeft(s: string): string {
    if |s| > 0 && IsSpace(s[0]) then TrimLeft(s[1..]) else s
  }

  /** s without its trailing whitespace (Python's rstrip()). */
  function TrimRight(s: string): string {
    if |s| > 0 && IsSpace(s[|s| - 1]) then TrimRight(s[..|s| - 1]) else s
  }

  /** Python's strip(): s with whitespace removed from both ends. */
  function Strip(s: string): string {
    TrimRight(TrimLeft(s))
  }

  /** lstrip() drops exactly the leading run of whitespace. */
  lemma {:induction false} TrimLeftSpec(s: string)
    ensures |TrimLeft(s)| <= |s| && TrimLeft(s) == s[|s| - |TrimLeft(s)|..]
    ensures forall k :: 0 <= k < |s| - |TrimLeft(s)| ==> IsSpace(s[k])
    ensures TrimLeft(s) == [] || !IsSpace(TrimLeft(s)[0])
    decreases |s|
  {
    if |s| > 0 && IsSpace(s[0]) {
      TrimLeftSpec(s[1..]);
      forall k | 1 <= k < |s| - |TrimLeft(s)| ensures IsSpace(s[k]) {
        assert s[k] == s[1..][k - 1];
      }
    }
  }

  /** rstrip() drops exactly the trailing run of whitespace. */
  lemma {:induction false} TrimRightSpec(s: string)
    ensures |TrimRight(s)| <= |s| && TrimRight(s) == s[..|TrimRight(s)|]
    ensures forall k :: |TrimRight(s)| <= k < |s| ==> IsSpace(s[k])
    ensures TrimRight(s) == [] || !IsSpace(TrimRight(s)[|TrimRight(s)| - 1])
    decreases |s|
  {
    if |s| > 0 && IsSpace(s[|s| - 1]) {
      TrimRightSpec(s[..|s| - 1]);
      forall k | |TrimRight(s)| <= k < |s| - 1 ensures IsSpace(s[k]) {
        assert s[k] == s[..|s| - 1][k];
      }
    }
  }

  /** rstrip() after lstrip() keeps a slice of the original string. */
  lemma StripSlice(s: string)
    ensures |TrimLeft(s)| <= |s|
    ensures |s| - |TrimLeft(s)| + |Strip(s)| <= |s|
    ensures Strip(s) == s[|s| - |TrimLeft(s)|..|s| - |TrimLeft(s)| + |Strip(s)|]
  {
    var l := TrimLeft(s);
    TrimLeftSpec(s);
    TrimRightSpec(l);
    var i := |s| - |l|;
    assert Strip(s) == l[..|Strip(s)|];
    assert l[..|Strip(s)|] == s[i..i + |Strip(s)|];
  }

  /** What rstrip() removes after lstrip() is whitespace of the original string. */
  lemma StripSuffixSpace(s: string)
    ensures |TrimLeft(s)| <= |s|
    ensures forall k :: |s| - |TrimLeft(s)| + |Strip(s)| <= k < |s| ==> IsSpace(s[k])
  {
    var l := TrimLeft(s);
    TrimLeftSpec(s);
    TrimRightSpec(l);
    var i := |s| - |l|;
    forall k | i + |Strip(s)| <= k < |s| ensures IsSpace(s[k]) {
      assert s[k] == l[k - i];
    }
  }

  /**
   * What strip() removes is whitespace only: the result is the slice of s
   * between a whitespace prefix and a whitespace suffix, and it neither starts
   * nor ends with whitespace.
   */
  lemma StripSpec(s: string)
    ensures var i, j := |s| - |TrimLeft(s)|, |s| - |TrimLeft(s)| + |Strip(s)|;
            && |TrimLeft(s)| <= |s| && j <= |s| && Strip(s) == s[i..j]
            && (forall k :: 0 <= k < i ==> IsSpace(s[k]))
            && (forall k :: j <= k < |s| ==> IsSpace(s[k]))
    ensures Strip(s) == [] || (!IsSpace(Strip(s)[0]) && !IsSpace(Strip(s)[|Strip(s)| - 1]))
  {
    TrimLeftSpec(s);
    TrimRightSpec(TrimLeft(s));
    StripSlice(s);
    StripSuffixSpace(s);
  }

  /** A word with no whitespace at either end strips to itself even with a line terminator. */
  lemma StripTerminated(w: string)
    requires w != [] && !IsSpace(w[0]) && !IsSpace(w[|w| - 1])
    ensures Strip(w + "\n") == w
  {
    var s := w + "\n";
    assert TrimLeft(s) == s;
    assert s[..|s| - 1] == w;
    assert TrimRight(s) == TrimRight(w);
  }

  predicate IsUpper(c: char) {
    'A' <= c <= 'Z'
  }

  function LowerChar(c: char): char {
    if IsUpper(c) then (c as int + 32) as char else c
  }

  /**
   * Python's lower(), restricted to ASCII: every upper-case ASCII letter becomes
   * its lower-case form and every other code point is kept.
   */
  function Lower(s: string): (r: string)
    ensures |r| == |s|
    ensures forall i :: 0 <= i < |r| ==> !IsUpper(r[i])
    ensures forall i :: 0 <= i < |s| ==>
              if IsUpper(s[i]) then r[i] as int == s[i] as int + 32 else r[i] == s[i]
  {
    if |s| == 0 then [] else [LowerChar(s[0])] + Lower(s[1..])
  }

  /** Lowering an already lowered string changes nothing. */
  lemma {:induction false} LowerIdempotent(s: string)
    ensures Lower(Lower(s)) == Lower(s)
  {
    if |s| > 0 {
      LowerIdempotent(s[1..]);
      assert Lower(s) == [LowerChar(s[0])] + Lower(s[1..]);
      assert Lower(s)[1..] == Lower(s[1..]);
    }
  }

  /**
   * Python's s.split(",")[-1]: the text after the last comma of s, or all of s
   * when it has no comma. The three ensures determine the result uniquely.
   */
  function AfterLastComma(s: string): (r: string)
    ensures |r| <= |s| && r == s[|s| - |r|..]
    ensures ',' !in r
    ensures |r| == |s| || s[|s| - |r| - 1] == ','
  {
    if |s| == 0 then []
    else if s[|s| - 1] == ',' then []
    else AfterLastComma(s[..|s| - 1]) + [s[|s| - 1]]
  }

  /** Whatever precedes the last comma does not affect the field after it. */
  lemma {:induction false} AfterLastCommaOf(a: string, b: string)
    requires ',' !in b
    ensures AfterLastComma(a + "," + b) == b
    decreases |b|
  {
    var s := a + "," + b;
    if |b| == 0 {
      assert s[|s| - 1] == ',';
    } else {
      var init, c := b[..|b| - 1], b[|b| - 1];
      assert b == init + [c];
      assert s[..|s| - 1] == a + "," + init;
      assert s[|s| - 1] == c && c != ',';
      AfterLastCommaOf(a, init);
    }
  }

  /** p occurs somewhere in s (Python's `p in s`). */
  ghost predicate Contains(s: string, p: string) {
    exists i :: 0 <= i <= |s| && p <= s[i..]
  }

  /** A pattern cannot occur in a string that lacks the pattern's first character. */
  lemma MissingFirstCharNotContained(s: string, p: string)
    requires |p| > 0 && p[0] !in s
    ensures !Contains(s, p)
  {
    forall i | 0 <= i <= |s|
      ensures !(p <= s[i..])
    {
      if i < |s| {
        assert s[i..][0] == s[i] != p[0];
      }
    }
  }

  /**
   * Python's s.replace(p, rep): scanning left to right, every occurrence of p
   * that does not overlap an earlier replaced one is replaced by rep.
   */
  function ReplaceAll(s: string, p: string, rep: string): (r: string)
    requires |p| > 0
    ensures !Contains(s, p) ==> r == s
    decreases |s|
  {
    if |s| == 0 then []
    else if p <= s then
      assert s[0..] == s;
      rep + ReplaceAll(s[|p|..], p, rep)
    else
      assert Contains(s[1..], p) ==> Contains(s, p) by {
        if Contains(s[1..], p) {
          var i :| 0 <= i <= |s[1..]| && p <= s[1..][i..];
          assert s[1..][i..] == s[i + 1..];
        }
      }
      [s[0]] + ReplaceAll(s[1..], p, rep)
  }

  /** Replacing a pattern by itself is the identity. */
  lemma {:induction false} ReplaceAllSelf(s: string, p: string)
    requires |p| > 0
    ensures ReplaceAll(s, p, p) == s
    decreases |s|
  {
    if |s| == 0 {
    } else if p <= s {
      ReplaceAllSelf(s[|p|..], p);
      assert s == p + s[|p|..];
    } else {
      ReplaceAllSelf(s[1..], p);
      assert s == [s[0]] + s[1..];
    }
  }

  /** The pattern's first character occurs nowhere else in it, so no two occurrences overlap. */
  predicate FirstCharUnique(p: string) {
    forall k :: 1 <= k < |p| ==> p[k] != p[0]
  }

  /** An occurrence in the tail of a string is an occurrence in the string. */
  lemma ContainsTail(s: string, p: string)
    requires |s| > 0
    ensures Contains(s[1..], p) ==> Contains(s, p)
  {
    if Contains(s[1..], p) {
      var i :| 0 <= i <= |s[1..]| && p <= s[1..][i..];
      assert s[1..][i..] == s[i + 1..];
    }
  }

  /** A string that neither starts with the pattern nor holds it in its tail holds no occurrence. */
  lemma NotContainedCons(s: string, p: string)
    requires |s| > 0 && !(p <= s) && !Contains(s[1..], p)
    ensures !Contains(s, p)
  {
    forall i | 0 <= i <= |s|
      ensures !(p <= s[i..])
    {
      if i > 0 {
        assert s[i..] == s[1..][i - 1..];
      }
    }
  }

  /** No occurrence starts in text lacking the pattern's first character. */
  lemma NotContainedAfterFree(a: string, b: string, p: string)
    requires |p| > 0 && p[0] !in a && !Contains(b, p)
    ensures !Contains(a + b, p)
  {
    var s := a + b;
    forall i | 0 <= i <= |s|
      ensures !(p <= s[i..])
    {
      if i < |a| {
        assert s[i..][0] == a[i] != p[0];
      } else {
        assert s[i..] == b[i - |a|..];
      }
    }
  }

  /**
   * Two pattern-free strings stay pattern-free when joined, provided the second
   * starts with a character the pattern does not contain.
   */
  lemma NotContainedBeforeForeign(a: string, b: string, p: string)
    requires |p| > 0 && !Contains(a, p) && !Contains(b, p)
    requires |b| > 0 && b[0] !in p
    ensures !Contains(a + b, p)
  {
    var s := a + b;
    forall i | 0 <= i <= |s|
      ensures !(p <= s[i..])
    {
      if |a| <= i {
        assert s[i..] == b[i - |a|..];
      } else if i + |p| <= |a| {
        assert !(p <= a[i..]);
        assert s[i..][..|p|] == a[i..][..|p|];
      } else {
        assert s[i..][|a| - i] == b[0] != p[|a| - i];
      }
    }
  }

  /** A non-empty string that does not start with the pattern keeps its first character. */
  lemma ReplaceAllStep(s: string, p: string, rep: string)
    requires |p| > 0 && |s| > 0 && !(p <= s)
    ensures ReplaceAll(s, p, rep) == [s[0]] + ReplaceAll(s[1..], p, rep)
  {
  }

  /** An occurrence at the front is replaced and scanning resumes after it. */
  lemma ReplaceAllLeading(u: string, p: string, rep: string)
    requires |p| > 0
    ensures ReplaceAll(p + u, p, rep) == rep + ReplaceAll(u, p, rep)
  {
    var s := p + u;
    assert s[..|p|] == p;
    assert s[|p|..] == u;
  }

  /** Pattern-free text followed by the pattern's first character (or by nothing) does not start with the pattern. */
  lemma FreeThenPatternNotLeading(x: string, t: string, p: string)
    requires |p| > 0 && |x| > 0 && FirstCharUnique(p) && !Contains(x, p)
    requires |t| == 0 || t[0] == p[0]
    ensures !(p <= x + t)
  {
    var s := x + t;
    if |p| <= |x| {
      assert x[0..] == x;
      assert s[..|p|] == x[..|p|];
    } else if |t| == 0 {
      assert |s| < |p|;
    } else {
      assert s[|x|] == p[0] != p[|x|];
    }
  }

  /** Splitting off the first character commutes with appending. */
  lemma ConsAppend(x: string, rest: string)
    requires |x| > 0
    ensures [x[0]] + (x[1..] + rest) == x + rest
  {
    assert x == [x[0]] + x[1..];
  }

  /**
   * Pattern-free text followed by an occurrence of the pattern (or by nothing)
   * is copied unchanged and replacement continues after it, when the pattern's
   * first character occurs only at its start.
   */
  lemma {:induction false} ReplaceAllSkipsFree(x: string, t: string, p: string, rep: string)
    requires |p| > 0 && FirstCharUnique(p) && !Contains(x, p)
    requires |t| == 0 || t[0] == p[0]
    ensures ReplaceAll(x + t, p, rep) == x + ReplaceAll(t, p, rep)
    decreases |x|
  {
    if |x| == 0 {
      assert x + t == t;
    } else {
      var s := x + t;
      FreeThenPatternNotLeading(x, t, p);
      ReplaceAllStep(s, p, rep);
      assert s[1..] == x[1..] + t;
      ContainsTail(x, p);
      ReplaceAllSkipsFree(x[1..], t, p, rep);
      ConsAppend(x, ReplaceAll(t, p, rep));
    }
  }

  /** Python's sep.join(parts). */
  function Join(parts: seq<string>, sep: string): string {
    if |parts| == 0 then []
    else if |parts| == 1 then parts[0]
    else parts[0] + sep + Join(parts[1..], sep)
  }

  /** A join of two or more parts is the first part, the separator, and the join of the rest. */
  lemma JoinCons(parts: seq<string>, sep: string)
    requires |parts| > 1
    ensures Join(parts, sep) == parts[0] + (sep + Join(parts[1..], sep))
  {
    assert parts[0] + sep + Join(parts[1..], sep) == parts[0] + (sep + Join(parts[1..], sep));
  }

  /** One step of the join: a free part, an occurrence, and a tail already known to be replaced. */
  lemma ReplaceAllJoinStep(x: string, tail: string, done: string, p: string, rep: string)
    requires |p| > 0 && FirstCharUnique(p) && !Contains(x, p)
    requires ReplaceAll(tail, p, rep) == done
    ensures ReplaceAll(x + (p + tail), p, rep) == x + (rep + done)
  {
    ReplaceAllSkipsFree(x, p + tail, p, rep);
    ReplaceAllLeading(tail, p, rep);
  }

  /**
   * Every occurrence is replaced: when no piece between occurrences of p holds
   * p, and p's first character occurs only at its start,
   * p.join(parts).replace(p, rep) == rep.join(parts).
   */
  lemma {:induction false} ReplaceAllJoin(parts: seq<string>, p: string, rep: string)
    requires |p| > 0 && FirstCharUnique(p)
    requires forall i :: 0 <= i < |parts| ==> !Contains(parts[i], p)
    ensures ReplaceAll(Join(parts, p), p, rep) == Join(parts, rep)
    decreases |parts|
  {
    if |parts| > 1 {
      var rest := parts[1..];
      assert forall i :: 0 <= i < |rest| ==> rest[i] == parts[i + 1];
      ReplaceAllJoin(rest, p, rep);
      JoinCons(parts, p);
      JoinCons(parts, rep);
      ReplaceAllJoinStep(parts[0], Join(rest, p), Join(rest, rep), p, rep);
    }
  }
}

=== FILE: wrappers.dfy ===
/** Optional values: a missing XML attribute or child, a file that could not be read. */
module Wrappers {

  datatype Option<+T> = None | Some(value: T)
}
